=== FILE: README.md ===
# space-explorer favorites service and quiz page, modelled in Dafny

This project models the parts of the space-explorer application that have
sequential logic:

- **The current backend** (`backend/server.js`). It holds a collection of
  favorite APOD (Astronomy Picture of the Day) entries with a unique index on
  (userId, date). The module `Favorites` models its add, list and delete
  handlers, the `database` flag of the health report, and the pure part of
  the APOD proxy.
- **The earlier backend** (`nasa-image-explorer-backend/server.js`). The
  module `LegacyFavorites` models the same handlers with weaker rules: no
  field validation, no unique index, no sort, and a delete that reports
  success whether or not anything was removed. Its last section proves where
  the two backends agree and where they differ.
- **The API helpers of both frontends** (`services/api.js`). The module
  `Client` builds the request URLs and the favorite body each frontend posts.
  It then relates that body to what the matching backend accepts.
- **The quiz page** (`QuizPage.jsx`). The module `Quiz` models the static
  question bank and the page's state machine: start, answer or skip, the
  countdown, next question, try again and choose a different quiz. It also
  models how the final score picks the results message.

Modelling conventions:

- Each request handler is a pure function from the collection and the
  request to a `Transition`, which holds the reply (status and JSON body) and
  the collection afterwards.
- A JavaScript value that may be `undefined` is an `Option<string>`. The
  predicate `Present` is JavaScript truthiness: `None` and `Some("")` are
  both falsy.
- The collection is a sequence kept in insertion order, plus a counter. The
  counter gives each inserted record its creation stamp (`createdAt`) and its
  id. An id is the counter's value written in decimal. `IdTextInjective`
  proves that rendering injective. `AddIssuesUnusedId` then proves that a
  save never gets an id used before, even one whose record was deleted.
- The store's id-format check (`ObjectId.isValid`) is a function parameter
  `isValid` with no interpretation.
- Calls to the NASA API are a function parameter. Given the outbound
  parameter set, it returns either a payload or a failure. `Exchange.sent`
  records whether a request was sent at all.
- Both backends read the same request body fields, so the shared
  `AddRequest` type models that body. The shared `Apod.OutboundParams`
  models the parameter building that both backends write the same way.

Notes on the code:

- A media type can be any string; neither schema restricts its values.
- The current backend answers "Already in favorites" only from its own
  lookup before the insert. A violation of the unique index itself would
  reach the handler's generic 500, since nothing translates it. Requests
  are handled one at a time here, so the lookup is what rejects duplicates.
- In the earlier backend, a delete with a malformed id makes the store's
  cast throw, so the reply is 500 "Error removing favorite". Every
  well-formed id gets 200, whether or not a record matched.

## Model

| member | source | states |
|---|---|---|
| `Apod.OutboundParams` | backend/server.js:70-76 | The upstream parameter set holds `api_key` exactly when a credential is defined. It also holds exactly those of date/count/start_date/end_date that are truthy, each with its own value, and nothing else. |
| `Apod.ErrorText` | backend/server.js:85 | The error text of a failed upstream call is the upstream body's `error` field when that is truthy, otherwise the transport message. |
| `Favorites.EmptyDbValid` | backend/server.js:35-47 | The empty collection satisfies the store invariant: unique (userId, date), ascending creation stamps, ids issued from the stamps, all schema fields non-empty. |
| `Common.IdTextInjective` | backend/server.js:118-119 | Ids rendered from distinct counter values are distinct. |
| `Favorites.IdsDistinct` | backend/server.js:118 | In a valid store no two records share an id. |
| `Favorites.Add` | backend/server.js:91-120 | If any of userId/title/url/date/explanation is missing or empty, the reply is 400 "Missing required fields". Otherwise an existing (userId, date) gives 400 "Already in favorites". Either way the store is unchanged. In every other case the reply is 201 with the new record, whose fields are the request's and whose mediaType is the given one or "image", and whose creation stamp and id come from the current counter. The store grows by exactly that record at the end, and the counter advances by one. |
| `Favorites.AddIssuesUnusedId` | backend/server.js:118 | The id of a saved record differs from the id of every earlier save. Deletes leave the counter alone, so this covers the ids of deleted records too. |
| `Favorites.AddPreservesValid` | backend/server.js:103-118 | Every add keeps the store invariant, in particular the uniqueness of (userId, date). |
| `Favorites.AddTwiceRejected` | backend/server.js:102-107 | Repeating a successful add is rejected with "Already in favorites" and leaves the store as the first add left it. |
| `Favorites.ForUserNewestFirst` | backend/server.js:148 | The selection contains exactly the stored records of the given user. |
| `Favorites.ForUserNewestFirstOrdered` | backend/server.js:148 | On an insertion-ordered store, that selection is in strictly descending `createdAt`. |
| `Favorites.List` | backend/server.js:130-151 | An empty userId gives 400 "User ID is required". A store that is not connected gives 500 "Database connection error". Otherwise the reply is 200 with exactly the user's records, newest first on a valid store. The store is never changed. |
| `Favorites.ListEmptyForNewUser` | backend/server.js:148-151 | A user with no favorites gets 200 with an empty list, not an error. |
| `Favorites.NewestFirstUnique` | backend/server.js:148 | Two newest-first sequences with the same elements are equal. |
| `Favorites.ListIsSortedSelection` | backend/server.js:148-151 | The listing equals every newest-first arrangement of the user's records, so it is what sorting by `createdAt` descending produces. |
| `Favorites.AddThenListNewestFirst` | backend/server.js:109-151 | After a successful add, the owner's listing starts with the new record. |
| `Common.IndexWhere` | backend/server.js:173 | The lookup behind delete-by-id returns the first position whose record matches, and returns nothing exactly when no record matches. The earlier backend's delete, at nasa-image-explorer-backend/server.js:93, uses the same lookup. |
| `Favorites.Remove` | backend/server.js:162-180 | An id failing `isValid` gives 400 "Invalid favorite ID". A well-formed id that is absent gives 404 "Favorite not found". Both leave the store unchanged. Otherwise the reply is 200 "Favorite removed successfully" and exactly one record with that id is cut out, the rest keeping their order. |
| `Favorites.RemovePreservesValid` | backend/server.js:173-180 | Every delete keeps the store invariant. |
| `Favorites.RemoveAtValid` | backend/server.js:173 | Cutting any one record out of a valid store leaves a valid store with the same counter. |
| `Favorites.RemoveTwiceNotFound` | backend/server.js:173-177 | After a successful delete, deleting the same id again gives 404 and changes nothing. |
| `Favorites.AddThenRemoveRestores` | backend/server.js:109-180 | Deleting a record just added (absent, then present, then absent) restores the previous collection, for any id-format check that accepts the ids the store issues. |
| `Favorites.DatabaseFlag` | backend/server.js:56 | The health report says "connected" exactly in the connected state and "disconnected" in every other state. |
| `Favorites.ListServedOnlyWhenConnected` | backend/server.js:143-146 | A listing succeeds only while the health report would say "connected". |
| `Favorites.ProxyApod` | backend/server.js:61-88 | A missing or empty credential gives 500 "NASA API key not configured" and no upstream request is sent. Otherwise the outbound parameter set is sent. A payload is relayed with 200; a failure gives 500 "Error fetching data from NASA API" with the upstream error text. |
| `Favorites.ProxySendsOnlyWithKey` | backend/server.js:66-79 | Every request sent upstream carries a non-empty `api_key`. |
| `LegacyFavorites.NextIdFresh` | nasa-image-explorer-backend/server.js:71 | The id given to the next save differs from every stored id. |
| `LegacyFavorites.Add` | nasa-image-explorer-backend/server.js:52-77 | An existing (userId, date) gives 400 "Already in favorites". Without a duplicate, a missing or empty schema field (mediaType included) makes the save fail with 500 "Error saving to favorites". Both leave the store unchanged. Otherwise the reply is 201 and the record stores every field verbatim, with no default media type. Its id comes from the current counter, and the counter advances by one. |
| `LegacyFavorites.AddIssuesUnusedId` | nasa-image-explorer-backend/server.js:71 | The id of a saved record is not in the store and differs from the id of every earlier save, deleted records included. |
| `LegacyFavorites.AddPreservesValid` | nasa-image-explorer-backend/server.js:56-72 | With requests handled one at a time, the duplicate check alone keeps (userId, date) unique and ids distinct. |
| `LegacyFavorites.ForUser` | nasa-image-explorer-backend/server.js:82 | The selection holds exactly the stored records of the given user, each as many times as it is stored, and no record of another user. |
| `LegacyFavorites.List` | nasa-image-explorer-backend/server.js:79-83 | Always 200, with exactly the user's records, each as many times as it is stored. No order is promised, and the store is unchanged. |
| `LegacyFavorites.Remove` | nasa-image-explorer-backend/server.js:90-99 | A malformed id gives 500 "Error removing favorite". Any well-formed id gives 200 "Favorite removed successfully": a present record with that id is cut out, and otherwise the store is unchanged. |
| `LegacyFavorites.RemovePreservesValid` | nasa-image-explorer-backend/server.js:93 | Every delete keeps the store invariant. |
| `LegacyFavorites.RemoveIdempotent` | nasa-image-explorer-backend/server.js:90-95 | Deleting twice gives the same reply and the same store as deleting once. |
| `LegacyFavorites.ProxyApod` | nasa-image-explorer-backend/server.js:32-49 | The outbound parameter set is always sent, whether or not a credential is configured. A payload is relayed with 200; any failure gives 500 "Error fetching data from NASA API". |
| `LegacyFavorites.ProxySendsWithoutKey` | nasa-image-explorer-backend/server.js:35-43 | Without a credential this proxy still sends a request, with no `api_key`; the current proxy sends nothing. |
| `LegacyFavorites.ProjectDbValid` | nasa-image-explorer-backend/server.js:20-27 | A valid current store, with its timestamps dropped, is a valid store of this schema. |
| `LegacyFavorites.AddAgreesOnCompleteRequests` | nasa-image-explorer-backend/server.js:52-77 | On a request carrying all six fields, both backends give the same status and leave the same collection. |
| `LegacyFavorites.AddDivergesWithoutMediaType` | nasa-image-explorer-backend/server.js:62-76 | Without a media type and without a duplicate, the current backend stores "image" while this one fails the save with 500. |
| `LegacyFavorites.RemoveDivergesOnAbsentId` | nasa-image-explorer-backend/server.js:90-95 | For a well-formed id that is not stored, the current backend answers 404 and this one answers 200; neither changes the collection. |
| `Client.ApiUrl` | frontend/src/services/api.js:3 | The API base is the configured URL when truthy, else "http://localhost:5000/api". |
| `Client.ApodUrl` | frontend/src/services/api.js:8-9 | The APOD URL is base + "/nasa/apod" for an empty query string, and base + "/nasa/apod?" + query otherwise. The same lines in nasa-image-explorer-frontend/src/services/api.js do the same. |
| `Client.ApodUrlRoundTrip` | frontend/src/services/api.js:9 | The query string can be read back from the APOD URL; in particular a "?" appears exactly when the query is non-empty. |
| `Client.ApodUrlInjective` | frontend/src/services/api.js:9 | Different query strings give different APOD URLs. |
| `Client.FavoriteItemUrl` | frontend/src/services/api.js:34 | The list and delete URLs are base + "/favorites/" + key, ending in the key itself (also lines 45, and 34 and 44 of the other frontend). |
| `Client.FavoriteItemUrlRoundTrip` | frontend/src/services/api.js:45 | The path key (user id or record id) can be read back from the URL. |
| `Client.FavoriteBody` | frontend/src/services/api.js:17-23 | The posted body copies userId, title, date and explanation. Its url is the entry's `url` when truthy, else `hdurl`. Its mediaType is the entry's `media_type` when truthy, else "image". |
| `Client.LegacyFavoriteBody` | nasa-image-explorer-frontend/src/services/api.js:17-23 | The posted body copies all six fields verbatim, with no url fallback and no media type default. |
| `Client.FavoriteBodyValidated` | frontend/src/services/api.js:17-23 | The current backend's required-field check passes on that body exactly when the user id, title, date and explanation are present and the entry has a `url` or an `hdurl`. |
| `Client.FavoriteBodyStoredMediaType` | frontend/src/services/api.js:20-23 | A stored favorite carries the entry's media type, or "image" when the entry has none; its url is `url`, or `hdurl` as fallback. |
| `Client.LegacyBodySaved` | nasa-image-explorer-frontend/src/services/api.js:17-23 | The earlier frontend and backend store an entry exactly when all six fields are present and the (userId, date) pair is new. An entry without a media type, with a new (userId, date) pair, gets 500. |
| `Quiz.AnswersInRange` | nasa-image-explorer-frontend/src/pages/QuizPage.jsx:19-88 | Each quiz of the bank has questions, and every answer index names one of its question's options. |
| `Quiz.BankWellFormed` | nasa-image-explorer-frontend/src/pages/QuizPage.jsx:13-90 | The whole bank is well formed and its quiz ids are distinct. |
| `Quiz.FindQuiz` | nasa-image-explorer-frontend/src/pages/QuizPage.jsx:106 | The lookup returns a quiz of the bank with the requested id, and returns nothing exactly when no quiz has it. |
| `Quiz.FindQuizFindsCard` | nasa-image-explorer-frontend/src/pages/QuizPage.jsx:148-164 | In a bank with distinct ids, the id on a quiz card finds that card's quiz. |
| `Quiz.InitialInv` | nasa-image-explorer-frontend/src/pages/QuizPage.jsx:4-11 | The initial component state satisfies the page invariant. |
| `Quiz.ScoreBounded` | nasa-image-explorer-frontend/src/pages/QuizPage.jsx:117-135 | Under the invariant, 0 ≤ score ≤ current question + 1 ≤ number of questions. |
| `Quiz.Start` | nasa-image-explorer-frontend/src/pages/QuizPage.jsx:105-115 | Starting loads the quiz found by id, at question 0, with score 0, 30 seconds, nothing answered or selected, started and not showing results. When the quiz exists, the result satisfies the invariant. |
| `Quiz.HandleAnswer` | nasa-image-explorer-frontend/src/pages/QuizPage.jsx:117-124 | Answering marks the question answered and records the selection. The score rises by exactly one if and only if the selection is the question's answer; a skip or timeout (no selection) never scores. Nothing else changes. |
| `Quiz.NextQuestion` | nasa-image-explorer-frontend/src/pages/QuizPage.jsx:126-135 | Before the last question, it advances by one and resets the answer, the selection and the 30-second timer. On the last question it only turns on the results. The score and the quiz are kept. |
| `Quiz.TryAgain` | nasa-image-explorer-frontend/src/pages/QuizPage.jsx:189-196 | Try-again resets question, score, results, answer, selection and timer, and keeps the chosen quiz and the started flag. |
| `Quiz.ResetQuiz` | nasa-image-explorer-frontend/src/pages/QuizPage.jsx:137-140 | Choosing a different quiz clears the quiz and the started flag and keeps every other field. |
| `Quiz.TimerEffect` | nasa-image-explorer-frontend/src/pages/QuizPage.jsx:92-103 | One run of the countdown effect. On an open, unanswered question with time left, it takes one second off and changes nothing else. At zero seconds on an unanswered question, it answers with no selection. In every other case it changes nothing. It never changes the score and never adds time. |
| `Quiz.Step` | nasa-image-explorer-frontend/src/pages/QuizPage.jsx:146-313 | The buttons each screen offers. The quiz list reacts only to a card's start button, which starts that card's quiz. Once a quiz is started, a start event changes nothing, since the cards are no longer on screen. An unanswered question reacts to an option (answering with it) and to skip (answering with nothing), but not to next. An answered question reacts only to next. A missing option index changes nothing. The results screen reacts only to try again and choose different. |
| `Quiz.StepPreservesInv` | nasa-image-explorer-frontend/src/pages/QuizPage.jsx:146-313 | Every event the page offers (card start, option, skip, next, try again, choose different, countdown) keeps the invariant. |
| `Quiz.Run` | nasa-image-explorer-frontend/src/pages/QuizPage.jsx:92-140 | Any sequence of events from a state satisfying the invariant ends in a state satisfying it. |
| `Quiz.ReachableScoreBounded` | nasa-image-explorer-frontend/src/pages/QuizPage.jsx:117-135 | In every state reachable from the initial one, score ≤ current question + 1 ≤ number of questions. |
| `Quiz.StepScoresAtMostOnce` | nasa-image-explorer-frontend/src/pages/QuizPage.jsx:247-250 | One event raises the score by at most one. It does so only by answering the open, unanswered question with its correct option, on the same question. |
| `Quiz.AnsweredIgnoresAnswers` | nasa-image-explorer-frontend/src/pages/QuizPage.jsx:249-250 | Once a question is answered, options, skip and the countdown change nothing. |
| `Quiz.TickCountsDown` | nasa-image-explorer-frontend/src/pages/QuizPage.jsx:92-97 | While a question is open, unanswered and time remains, the countdown takes off exactly one second and changes nothing else. |
| `Quiz.TimeoutAnswersWithoutScoring` | nasa-image-explorer-frontend/src/pages/QuizPage.jsx:98-100 | At zero seconds on an unanswered question, the countdown answers with no selection and the score is unchanged. |
| `Quiz.CorrectAllIffPerfect` | nasa-image-explorer-frontend/src/pages/QuizPage.jsx:181-182 | The count of correct picks never exceeds the number of picks, and equals it exactly when every pick is the answer. |
| `Quiz.PlayScores` | nasa-image-explorer-frontend/src/pages/QuizPage.jsx:117-135 | Answering and advancing through the remaining questions ends on the results screen, with one point added per correct pick. |
| `Quiz.PlayFromFirstQuestion` | nasa-image-explorer-frontend/src/pages/QuizPage.jsx:117-185 | A full play from the first question ends on the results screen of the same quiz, scoring the number of correct picks. The verdict is Perfect exactly when every pick was right. |
| `Quiz.RunPlayEvents` | nasa-image-explorer-frontend/src/pages/QuizPage.jsx:245-313 | Pressing an existing option (or skip) and then next, once per question, is the same as answering and advancing directly: the state after those events equals `Play` on the same picks. |
| `Quiz.PlayQuizFromCard` | nasa-image-explorer-frontend/src/pages/QuizPage.jsx:163-185 | From the quiz list, a card's start button followed by one on-screen option or skip plus next per question ends on that quiz's results screen, with the number of correct picks as the score. The screen shows the "Perfect score!" text exactly when every pick was right. |
| `Quiz.StartOpensFirstQuestion` | nasa-image-explorer-frontend/src/pages/QuizPage.jsx:163-164 | Pressing any card's start button from the initial page opens that quiz's first question with score 0. |
| `Quiz.Classify` | nasa-image-explorer-frontend/src/pages/QuizPage.jsx:181-185 | The message is "Perfect" exactly when score = total. Otherwise it is "Well done" exactly when score ≥ total/2 (stated as 2·score ≥ total). Otherwise it is "Keep exploring". |
| `Quiz.ClassifyMonotone` | nasa-image-explorer-frontend/src/pages/QuizPage.jsx:181-185 | Up to the total, a higher score never earns a lesser message. |

## Left out

- The document-store connection and its monitoring: connecting, the error and disconnect events, and process exit. The connection state is a parameter of the list handler and the health flag.
- Store failures inside the handlers: connectivity loss, or a unique-index violation from a concurrent insert. They would surface as each handler's generic 500 ("Error saving to favorites", "Error fetching favorites", "Error removing favorite"). Each handler here is atomic, and the store never fails.
- Concurrency: the check-then-insert race and interleaved requests. Handlers run one at a time.
- The id format: ids are the decimal text of a counter, and `isValid` is a parameter. Only `Favorites.AddThenRemoveRestores` assumes that `isValid` accepts every issued id (`AcceptsIssued`); other members promise nothing about which ids it accepts. `updatedAt` is left out, and `createdAt` is the counter value.
- JSON type coercion: a body field that is not a string, and express query values that are arrays. The upstream error body is taken to be a string or absent. The source relays whatever JSON value the NASA API put under `error` unchanged.
- The HTTP calls: the NASA API is a function parameter, and the frontends' calls to the backend return nothing here. `URLSearchParams` encoding is left out: the query string is an input.
- `getQuizQuestions` (`/quiz`): no backend serves that path, so only its URL would be modelled, and it is left out.
- Express middleware, the catch-all 404 and 500 handlers, CORS, `listen`, logging, dotenv, and the health report's `status` and `timestamp` fields.
- LegacyFavorites.Add: a filter field that is absent is taken to match no stored record. The document store's own handling of `undefined` in a filter is not modelled.
- LegacyFavorites.List: the model returns records in storage order. The contract states the contents, with how many times each record is stored, but no order, since the source promises none.
- Quiz rendering: progress-bar widths (floating point), option letters, answer colouring, and the "Next Question"/"See Results" label.
- React's asynchronous state updates and stale closures. Also the order problems of the source file: the effect names `handleAnswer` before it is declared. Each transition is applied atomically to the current state.
- Quiz.Start: an id that is not in the bank would leave a started page with no quiz. No button produces such an id, so the invariant is proved only for ids of the bank.
- The notification timers and all view-only pages and components.

=== FILE: apod.dfy ===
/** The pure part of the `/api/nasa/apod` proxy shared by both backends: the
    incoming query, the parameter set sent upstream, and the abstract outcome
    of the upstream call. */
module Apod {
  import opened Common

  /** Outbound query parameters, by name, after the HTTP client drops the
      undefined ones. */
  type Params = map<string, string>

  /** The four optional query fields the proxy forwards. */
  datatype Query = Query(
    date: Option<string>,
    count: Option<string>,
    startDate: Option<string>,
    endDate: Option<string>)

  const ForwardedNames: set<string> := {"date", "count", "start_date", "end_date"}

  /** The query field that travels upstream under `name`. */
  function Field(q: Query, name: string): Option<string> {
    if name == "date" then q.date
    else if name == "count" then q.count
    else if name == "start_date" then q.startDate
    else if name == "end_date" then q.endDate
    else None
  }

  /** The spread `...(v && { name: v })`: adds `name` only when `v` is truthy. */
  function Include(p: Params, name: string, v: Option<string>): Params {
    if Present(v) then p[name := v.value] else p
  }

  /** The parameter set of the upstream request: the credential under
      `api_key` when it is defined, and exactly those of the four query fields
      that are truthy, each with its own value. */
  function OutboundParams(key: Option<string>, q: Query): (p: Params)
    ensures "api_key" in p <==> key.Some?
    ensures key.Some? ==> p["api_key"] == key.value
    ensures forall name :: name in p ==> name == "api_key" || name in ForwardedNames
    ensures forall name :: name in ForwardedNames ==>
              && (name in p <==> Present(Field(q, name)))
              && (name in p ==> p[name] == Field(q, name).value)
  {
    var base: Params := if key.Some? then map["api_key" := key.value] else map[];
    Include(Include(Include(Include(base, "date", q.date), "count", q.count),
                    "start_date", q.startDate),
            "end_date", q.endDate)
  }

  /** What the upstream call did: delivered a JSON payload, or failed with
      the transport's message and, when the upstream answered, the `error`
      field of its body. */
  datatype Upstream =
    | Delivered(payload: string)
    | Failed(responseError: Option<string>, message: string)

  /** The error text of a failure: the upstream body's `error` when truthy,
      otherwise the transport message. */
  function ErrorText(u: Upstream): (t: string)
    requires u.Failed?
    ensures Present(u.responseError) ==> t == u.responseError.value
    ensures !Present(u.responseError) ==> t == u.message
  {
    if Present(u.responseError) then u.responseError.value else u.message
  }

  /** One proxied request: the reply to the browser and the upstream request
      that was sent, if any. */
  datatype Exchange = Exchange(reply: Reply<string>, sent: Option<Params>)
}

=== FILE: client.dfy ===
/** The browser-side API helpers (`services/api.js` of both frontends): the
    URLs they request, and the favorite body they post, which is what the
    matching backend validates. The two files build URLs identically and
    differ only in the body mapping. */
module Client {
  import opened Common
  import Favorites
  import LegacyFavorites

  const DefaultApiUrl: string := "http://localhost:5000/api"
  const ApodPath: string := "/nasa/apod"
  const FavoritesPath: string := "/favorites"

  /** `VITE_API_URL || 'http://localhost:5000/api'`. */
  function ApiUrl(configured: Option<string>): (api: string)
    ensures Present(configured) ==> api == configured.value
    ensures !Present(configured) ==> api == DefaultApiUrl
  {
    if Present(configured) then configured.value else DefaultApiUrl
  }

  // ---------------------------------------------------------------------
  // getApodImage

  /** The APOD request URL for an already encoded query string. */
  function ApodUrl(api: string, queryString: string): (url: string)
    ensures queryString == "" ==> url == api + ApodPath
    ensures queryString != "" ==> url == api + ApodPath + "?" + queryString
  {
    if queryString != "" then api + ApodPath + "?" + queryString else api + ApodPath
  }

  /** Reads the query string back out of an APOD request URL: `None` when the
      URL does not have the shape `ApodUrl` produces. */
  function QueryOf(api: string, url: string): Option<string> {
    var base := api + ApodPath;
    if |url| < |base| || url[..|base|] != base then None
    else
      var rest := url[|base|..];
      if rest == "" then Some("")
      else if rest[0] == '?' && |rest| > 1 then Some(rest[1..])
      else None
  }

  /** The query string is recoverable from the URL: the URL has a `?` exactly
      when there is a query. */
  lemma ApodUrlRoundTrip(api: string, queryString: string)
    ensures QueryOf(api, ApodUrl(api, queryString)) == Some(queryString)
  {
    var base := api + ApodPath;
    var url := ApodUrl(api, queryString);
    if queryString != "" {
      assert url == base + ("?" + queryString);
      assert url[..|base|] == base;
      assert url[|base|..] == "?" + queryString;
    } else {
      assert url[..|base|] == base;
    }
  }

  lemma ApodUrlInjective(api: string, q1: string, q2: string)
    requires ApodUrl(api, q1) == ApodUrl(api, q2)
    ensures q1 == q2
  {
    ApodUrlRoundTrip(api, q1);
    ApodUrlRoundTrip(api, q2);
  }

  // ---------------------------------------------------------------------
  // getFavorites and removeFavorite

  /** `${API_URL}/favorites/${key}`: the user id when listing, the record id
      when deleting. */
  function FavoriteItemUrl(api: string, key: string): (url: string)
    ensures |url| == |api| + |FavoritesPath| + 1 + |key|
    ensures url[..|api| + |FavoritesPath| + 1] == api + FavoritesPath + "/"
    ensures url[|api| + |FavoritesPath| + 1..] == key
  {
    api + FavoritesPath + "/" + key
  }

  /** The path parameter of a favorites item URL, if it has that shape. */
  function PathKeyOf(api: string, url: string): Option<string> {
    var base := api + FavoritesPath + "/";
    if |url| < |base| || url[..|base|] != base then None else Some(url[|base|..])
  }

  lemma FavoriteItemUrlRoundTrip(api: string, key: string)
    ensures PathKeyOf(api, FavoriteItemUrl(api, key)) == Some(key)
  {
    var base := api + FavoritesPath + "/";
    assert FavoriteItemUrl(api, key) == base + key;
    assert (base + key)[..|base|] == base;
  }

  // ---------------------------------------------------------------------
  // addToFavorites

  /** The fields of an APOD entry the favorite body is built from. */
  datatype ImageData = ImageData(
    title: Option<string>,
    url: Option<string>,
    hdurl: Option<string>,
    date: Option<string>,
    explanation: Option<string>,
    mediaType: Option<string>)

  /** The current frontend's body: `url` falls back to `hdurl`, and
      `mediaType` defaults to "image". */
  function FavoriteBody(userId: Option<string>, img: ImageData): (b: AddRequest)
    ensures b.userId == userId && b.title == img.title
    ensures b.date == img.date && b.explanation == img.explanation
    ensures Present(img.url) ==> b.url == img.url
    ensures !Present(img.url) ==> b.url == img.hdurl
    ensures Present(img.mediaType) ==> b.mediaType == img.mediaType
    ensures !Present(img.mediaType) ==> b.mediaType == Some("image")
  {
    AddRequest(userId, img.title, Or(img.url, img.hdurl), img.date, img.explanation,
               Or(img.mediaType, Some("image")))
  }

  /** The earlier frontend's body: every field copied verbatim. */
  function LegacyFavoriteBody(userId: Option<string>, img: ImageData): (b: AddRequest)
    ensures b.userId == userId && b.title == img.title && b.url == img.url
    ensures b.date == img.date && b.explanation == img.explanation
    ensures b.mediaType == img.mediaType
  {
    AddRequest(userId, img.title, img.url, img.date, img.explanation, img.mediaType)
  }

  /** The current frontend's body passes the current backend's validation
      exactly when the user id, title, date and explanation are present and
      the entry has a `url` or an `hdurl`. */
  lemma FavoriteBodyValidated(db: Favorites.Db, userId: Option<string>, img: ImageData)
    ensures var t := Favorites.Add(db, FavoriteBody(userId, img));
            t.reply != Reply(StatusBadRequest, Message("Missing required fields")) <==>
              && Present(userId) && Present(img.title) && Present(img.date)
              && Present(img.explanation) && (Present(img.url) || Present(img.hdurl))
  {
  }

  /** A body the current backend accepts is stored with the entry's media
      type, or "image" when the entry has none; the body never lacks one. */
  lemma FavoriteBodyStoredMediaType(db: Favorites.Db, userId: Option<string>, img: ImageData)
    requires Favorites.Add(db, FavoriteBody(userId, img)).reply.status == StatusCreated
    ensures var f := Favorites.Add(db, FavoriteBody(userId, img)).reply.body.data;
            && (Present(img.mediaType) ==> f.mediaType == img.mediaType.value)
            && (!Present(img.mediaType) ==> f.mediaType == "image")
            && (Present(img.url) ==> f.url == img.url.value)
            && (!Present(img.url) ==> Some(f.url) == img.hdurl)
  {
  }

  /** The earlier frontend and backend store an entry only when all six
      fields are present and the (userId, date) pair is new; an entry without
      a media type makes the save fail. */
  lemma LegacyBodySaved(db: LegacyFavorites.Db, userId: Option<string>, img: ImageData)
    ensures var b := LegacyFavoriteBody(userId, img);
            var t := LegacyFavorites.Add(db, b);
            && (t.reply.status == StatusCreated <==>
                  && !LegacyFavorites.HasMatch(db.records, b)
                  && Present(userId) && Present(img.title) && Present(img.url)
                  && Present(img.date) && Present(img.explanation) && Present(img.mediaType))
            && (!Present(img.mediaType) && !LegacyFavorites.HasMatch(db.records, b) ==>
                  t.reply == Reply(StatusServerError, Message("Error saving to favorites")))
  {
  }
}

=== FILE: common.dfy ===
/** Shared vocabulary of the favorites service and its clients: optional JSON
    fields read with JavaScript truthiness, HTTP replies, the add-favorite
    request body, and the textual form of the ids the store issues. */
module Common {

  datatype Option<+T> = None | Some(value: T)

  /** JavaScript truthiness of an optional string field: `undefined`, `null`
      and the empty string are all falsy. */
  predicate Present(s: Option<string>) {
    s.Some? && s.value != ""
  }

  /** `a || b` on two optional strings. */
  function Or(a: Option<string>, b: Option<string>): Option<string> {
    if Present(a) then a else b
  }

  const StatusOk: nat := 200
  const StatusCreated: nat := 201
  const StatusBadRequest: nat := 400
  const StatusNotFound: nat := 404
  const StatusServerError: nat := 500

  /** A JSON response body: `{message}`, `{message, error}`, or a payload. */
  datatype Body<+T> =
    | Message(message: string)
    | Failure(message: string, error: string)
    | Data(data: T)

  datatype Reply<+T> = Reply(status: nat, body: Body<T>)

  /** The reply of one request handler together with the store it leaves. */
  datatype Transition<+S, +T> = Transition(reply: Reply<T>, store: S)

  /** The JSON body of `POST /api/favorites`; every field may be absent. */
  datatype AddRequest = AddRequest(
    userId: Option<string>,
    title: Option<string>,
    url: Option<string>,
    date: Option<string>,
    explanation: Option<string>,
    mediaType: Option<string>)

  /** The five fields the current backend checks before inserting. */
  predicate RequiredPresent(req: AddRequest) {
    && Present(req.userId)
    && Present(req.title)
    && Present(req.url)
    && Present(req.date)
    && Present(req.explanation)
  }

  function DigitChar(d: nat): char
    requires d < 10
  {
    (48 + d) as char
  }

  /** The id the store gives to the `n`-th inserted record: `n` in decimal.
      Any injective rendering of a fresh counter would do; the id format of
      the real document store is not part of this model. */
  function IdText(n: nat): (s: string)
    ensures |s| >= 1
    ensures n >= 10 ==> |s| >= 2
  {
    if n < 10 then [DigitChar(n)] else IdText(n / 10) + [DigitChar(n % 10)]
  }

  /** Distinct counter values give distinct ids, so an id is never reused. */
  lemma {:induction false} IdTextInjective(a: nat, b: nat)
    requires IdText(a) == IdText(b)
    ensures a == b
    decreases a
  {
    if a >= 10 && b >= 10 {
      var sa, sb := IdText(a), IdText(b);
      assert sa == IdText(a / 10) + [DigitChar(a % 10)];
      assert sb == IdText(b / 10) + [DigitChar(b % 10)];
      assert sa[|sa| - 1] == sb[|sb| - 1];
      assert IdText(a / 10) == sa[..|sa| - 1];
      assert IdText(b / 10) == sb[..|sb| - 1];
      IdTextInjective(a / 10, b / 10);
    } else if a < 10 && b < 10 {
      assert IdText(a)[0] == IdText(b)[0];
    }
  }

  /** The position of the first element satisfying `p`: the lookup behind a
      delete by id, which finds the one document the filter matches. */
  function IndexWhere<T>(s: seq<T>, p: T -> bool): (r: Option<nat>)
    ensures r.Some? ==> r.value < |s| && p(s[r.value])
    ensures r.Some? ==> forall j :: 0 <= j < r.value ==> !p(s[j])
    ensures r.None? <==> forall j :: 0 <= j < |s| ==> !p(s[j])
    decreases |s|
  {
    if |s| == 0 then None
    else if p(s[0]) then Some(0)
    else
      match IndexWhere(s[1..], p)
      case None =>
        assert forall j :: 1 <= j < |s| ==> s[j] == s[1..][j - 1];
        None
      case Some(k) =>
        assert forall j :: 1 <= j < k + 1 ==> s[j] == s[1..][j - 1];
        Some(k + 1)
  }

  /** The sequence with its `i`-th element cut out. */
  function RemoveAt<T>(s: seq<T>, i: nat): seq<T>
    requires i < |s|
  {
    s[..i] + s[i + 1..]
  }

  /** Cutting out one element shifts the later ones down by one position. */
  lemma RemoveAtElement<T>(s: seq<T>, i: nat, a: nat)
    requires i < |s| && a < |s| - 1
    ensures |RemoveAt(s, i)| == |s| - 1
    ensures RemoveAt(s, i)[a] == s[if a < i then a else a + 1]
  {
  }
}

=== FILE: favorites.dfy ===
/** The current backend (`backend/server.js`): the favorites collection with
    its unique (userId, date) index, the POST/GET/DELETE `/api/favorites`
    handlers as pure transitions over the collection, the `database` flag of
    the health report, and the APOD proxy. */
module Favorites {
  import opened Common
  import Apod

  /** A stored favorite. `createdAt` is the value of the store's insertion
      counter when the record was saved; `id` is issued from the same value. */
  datatype Favorite = Favorite(
    id: string,
    userId: string,
    title: string,
    url: string,
    date: string,
    explanation: string,
    mediaType: string,
    createdAt: nat)

  /** The collection in insertion order, and the counter that stamps the next
      insert. */
  datatype Db = Db(records: seq<Favorite>, clock: nat)

  const EmptyDb: Db := Db([], 0)

  /** Every schema field is required, and the schema rejects empty strings. */
  predicate Complete(f: Favorite) {
    f.userId != "" && f.title != "" && f.url != "" && f.date != ""
    && f.explanation != "" && f.mediaType != ""
  }

  predicate SameKey(a: Favorite, b: Favorite) {
    a.userId == b.userId && a.date == b.date
  }

  /** The compound unique index on (userId, date). */
  predicate UniqueKeys(records: seq<Favorite>) {
    forall i, j :: 0 <= i < j < |records| ==> !SameKey(records[i], records[j])
  }

  /** Insertion order is creation order. */
  predicate Ascending(records: seq<Favorite>) {
    forall i, j :: 0 <= i < j < |records| ==> records[i].createdAt < records[j].createdAt
  }

  /** Newest first: strictly decreasing `createdAt`. */
  predicate NewestFirst(records: seq<Favorite>) {
    forall i, j :: 0 <= i < j < |records| ==> records[i].createdAt > records[j].createdAt
  }

  predicate Stamped(f: Favorite, clock: nat) {
    f.createdAt < clock && f.id == IdText(f.createdAt)
  }

  /** The invariant every handler keeps. */
  predicate Valid(db: Db) {
    && UniqueKeys(db.records)
    && Ascending(db.records)
    && (forall i :: 0 <= i < |db.records| ==> Stamped(db.records[i], db.clock))
    && (forall i :: 0 <= i < |db.records| ==> Complete(db.records[i]))
  }

  predicate HasKey(records: seq<Favorite>, userId: string, date: string) {
    exists i :: 0 <= i < |records| && records[i].userId == userId && records[i].date == date
  }

  predicate HasId(records: seq<Favorite>, id: string) {
    exists i :: 0 <= i < |records| && records[i].id == id
  }

  lemma EmptyDbValid()
    ensures Valid(EmptyDb)
  {
  }

  /** No two records of a valid store share an id. */
  lemma IdsDistinct(db: Db, i: nat, j: nat)
    requires Valid(db)
    requires i < |db.records| && j < |db.records| && i != j
    ensures db.records[i].id != db.records[j].id
  {
    if db.records[i].id == db.records[j].id {
      IdTextInjective(db.records[i].createdAt, db.records[j].createdAt);
      assert false;
    }
  }

  // ---------------------------------------------------------------------
  // POST /api/favorites

  /** The record a successful add inserts. */
  function NewFavorite(db: Db, req: AddRequest): Favorite
    requires RequiredPresent(req)
  {
    Favorite(IdText(db.clock), req.userId.value, req.title.value, req.url.value,
             req.date.value, req.explanation.value,
             if Present(req.mediaType) then req.mediaType.value else "image",
             db.clock)
  }

  /** Validate the five required fields, reject a second favorite for the same
      (userId, date), otherwise insert. */
  function Add(db: Db, req: AddRequest): (t: Transition<Db, Favorite>)
    ensures !RequiredPresent(req) ==>
              t == Transition(Reply(StatusBadRequest, Message("Missing required fields")), db)
    ensures RequiredPresent(req) && HasKey(db.records, req.userId.value, req.date.value) ==>
              t == Transition(Reply(StatusBadRequest, Message("Already in favorites")), db)
    ensures t.reply.status == StatusCreated <==>
              RequiredPresent(req) && !HasKey(db.records, req.userId.value, req.date.value)
    ensures t.reply.status == StatusCreated ==>
              && t.reply.body.Data?
              && var f := t.reply.body.data;
              && f.userId == req.userId.value && f.title == req.title.value
              && f.url == req.url.value && f.date == req.date.value
              && f.explanation == req.explanation.value
              && (Present(req.mediaType) ==> f.mediaType == req.mediaType.value)
              && (!Present(req.mediaType) ==> f.mediaType == "image")
              && f.createdAt == db.clock && f.id == IdText(db.clock)
              && t.store.records == db.records + [f]
              && t.store.clock == db.clock + 1
    ensures t.reply.status != StatusCreated ==> t.store == db
  {
    if !RequiredPresent(req) then
      Transition(Reply(StatusBadRequest, Message("Missing required fields")), db)
    else if HasKey(db.records, req.userId.value, req.date.value) then
      Transition(Reply(StatusBadRequest, Message("Already in favorites")), db)
    else
      var f := NewFavorite(db, req);
      Transition(Reply(StatusCreated, Data(f)), Db(db.records + [f], db.clock + 1))
  }

  /** A saved record gets an id that no earlier save was given. Deletes keep
      the counter, so this holds also for the ids of deleted records. */
  lemma AddIssuesUnusedId(db: Db, req: AddRequest, k: nat)
    requires Add(db, req).reply.status == StatusCreated && k < db.clock
    ensures Add(db, req).reply.body.data.id != IdText(k)
  {
    if Add(db, req).reply.body.data.id == IdText(k) {
      IdTextInjective(k, db.clock);
    }
  }

  lemma AddPreservesValid(db: Db, req: AddRequest)
    requires Valid(db)
    ensures Valid(Add(db, req).store)
  {
    var t := Add(db, req);
    if t.reply.status == StatusCreated {
      var f := t.reply.body.data;
      var rs := t.store.records;
      assert rs[|rs| - 1] == f;
      forall i, j | 0 <= i < j < |rs|
        ensures !SameKey(rs[i], rs[j])
      {
        if j == |rs| - 1 {
          assert rs[i] == db.records[i];
        }
      }
    }
  }

  /** Adding the same (userId, date) twice leaves exactly one record for it. */
  lemma AddTwiceRejected(db: Db, req: AddRequest)
    requires Add(db, req).reply.status == StatusCreated
    ensures var db' := Add(db, req).store;
            Add(db', req) == Transition(Reply(StatusBadRequest, Message("Already in favorites")), db')
  {
    var db' := Add(db, req).store;
    assert db'.records[|db'.records| - 1].userId == req.userId.value;
    assert db'.records[|db'.records| - 1].date == req.date.value;
  }

  // ---------------------------------------------------------------------
  // GET /api/favorites/:userId

  /** The connection states the document store reports. */
  datatype ReadyState = Disconnected | Connected | Connecting | Disconnecting

  /** The records of `userId`, newest first: the store keeps insertion order,
      so scanning it from the back yields descending `createdAt`. */
  function ForUserNewestFirst(records: seq<Favorite>, userId: string): (r: seq<Favorite>)
    ensures forall f :: f in r <==> f in records && f.userId == userId
    ensures |r| <= |records|
    decreases |records|
  {
    if |records| == 0 then []
    else
      var last := records[|records| - 1];
      var front := records[..|records| - 1];
      assert records == front + [last];
      if last.userId == userId then [last] + ForUserNewestFirst(front, userId)
      else ForUserNewestFirst(front, userId)
  }

  /** Scanning an insertion-ordered store from the back yields the newest
      record first. */
  lemma {:induction false} ForUserNewestFirstOrdered(records: seq<Favorite>, userId: string)
    requires Ascending(records)
    ensures NewestFirst(ForUserNewestFirst(records, userId))
    decreases |records|
  {
    if |records| > 0 {
      var last := records[|records| - 1];
      var front := records[..|records| - 1];
      var rest := ForUserNewestFirst(front, userId);
      ForUserNewestFirstOrdered(front, userId);
      if last.userId == userId {
        forall f | f in rest
          ensures f.createdAt < last.createdAt
        {
          var i :| 0 <= i < |front| && front[i] == f;
          assert records[i] == f;
        }
        PrependNewest(last, rest);
      }
    }
  }

  lemma PrependNewest(f: Favorite, rest: seq<Favorite>)
    requires NewestFirst(rest)
    requires forall g :: g in rest ==> g.createdAt < f.createdAt
    ensures NewestFirst([f] + rest)
  {
    var r := [f] + rest;
    forall i, j | 0 <= i < j < |r|
      ensures r[i].createdAt > r[j].createdAt
    {
      assert r[j] == rest[j - 1];
      if i > 0 {
        assert r[i] == rest[i - 1];
      }
    }
  }

  function List(db: Db, userId: string, state: ReadyState): (t: Transition<Db, seq<Favorite>>)
    ensures t.store == db
    ensures userId == "" ==> t.reply == Reply(StatusBadRequest, Message("User ID is required"))
    ensures userId != "" && state != Connected ==>
              t.reply == Reply(StatusServerError, Message("Database connection error"))
    ensures userId != "" && state == Connected ==>
              && t.reply.status == StatusOk && t.reply.body.Data?
              && (forall f :: f in t.reply.body.data <==> f in db.records && f.userId == userId)
              && (Valid(db) ==> NewestFirst(t.reply.body.data))
  {
    if userId == "" then
      Transition(Reply(StatusBadRequest, Message("User ID is required")), db)
    else if state != Connected then
      Transition(Reply(StatusServerError, Message("Database connection error")), db)
    else
      var favorites := ForUserNewestFirst(db.records, userId);
      assert Valid(db) ==> NewestFirst(favorites) by {
        if Valid(db) {
          ForUserNewestFirstOrdered(db.records, userId);
        }
      }
      Transition(Reply(StatusOk, Data(favorites)), db)
  }

  /** A user with no favorites gets an empty list, not an error. */
  lemma ListEmptyForNewUser(db: Db, userId: string)
    requires userId != ""
    requires forall i :: 0 <= i < |db.records| ==> db.records[i].userId != userId
    ensures List(db, userId, Connected).reply == Reply(StatusOk, Data([]))
  {
    var r := ForUserNewestFirst(db.records, userId);
    assert |r| > 0 ==> r[0] in db.records && r[0].userId == userId;
  }

  /** Two newest-first sequences with the same elements start with the same
      (newest) record. */
  lemma NewestFirstSameHead(s: seq<Favorite>, t: seq<Favorite>)
    requires NewestFirst(s) && NewestFirst(t)
    requires forall f :: f in s <==> f in t
    requires |s| > 0
    ensures |t| > 0 && s[0] == t[0]
  {
    assert s[0] in t;
    assert t[0] in s;
    var k :| 0 <= k < |t| && t[k] == s[0];
    var m :| 0 <= m < |s| && s[m] == t[0];
    assert k == 0;
  }

  /** With equal heads, the tails hold the same elements. */
  lemma NewestFirstSameTail(s: seq<Favorite>, t: seq<Favorite>)
    requires NewestFirst(s) && NewestFirst(t)
    requires forall f :: f in s <==> f in t
    requires |s| > 0 && |t| > 0 && s[0] == t[0]
    ensures forall f :: f in s[1..] <==> f in t[1..]
  {
    forall f
      ensures f in s[1..] <==> f in t[1..]
    {
      if f in s[1..] {
        var i :| 1 <= i < |s| && s[i] == f;
        assert f.createdAt < s[0].createdAt;
        assert f in t;
      }
      if f in t[1..] {
        var i :| 1 <= i < |t| && t[i] == f;
        assert f.createdAt < t[0].createdAt;
        assert f in s;
      }
    }
  }

  /** Newest-first order with the same elements determines the sequence: the
      listing is the result of sorting the user's records by `createdAt`
      descending, whatever sort produced it. */
  lemma {:induction false} NewestFirstUnique(s: seq<Favorite>, t: seq<Favorite>)
    requires NewestFirst(s) && NewestFirst(t)
    requires forall f :: f in s <==> f in t
    ensures s == t
    decreases |s|
  {
    assert |t| > 0 ==> t[0] in s;
    if |s| > 0 {
      NewestFirstSameHead(s, t);
      NewestFirstSameTail(s, t);
      NewestFirstUnique(s[1..], t[1..]);
      assert s == [s[0]] + s[1..];
      assert t == [t[0]] + t[1..];
    }
  }

  /** The listing equals any newest-first arrangement of the user's records. */
  lemma ListIsSortedSelection(db: Db, userId: string, sorted: seq<Favorite>)
    requires Valid(db) && userId != ""
    requires NewestFirst(sorted)
    requires forall f :: f in sorted <==> f in db.records && f.userId == userId
    ensures List(db, userId, Connected).reply == Reply(StatusOk, Data(sorted))
  {
    ForUserNewestFirstOrdered(db.records, userId);
    NewestFirstUnique(ForUserNewestFirst(db.records, userId), sorted);
  }

  /** After a successful add, the owner's listing starts with the new record. */
  lemma AddThenListNewestFirst(db: Db, req: AddRequest)
    requires Valid(db)
    requires Add(db, req).reply.status == StatusCreated
    ensures var t := Add(db, req);
            var l := List(t.store, req.userId.value, Connected).reply.body.data;
            |l| > 0 && l[0] == t.reply.body.data
  {
    var t := Add(db, req);
    var rs := t.store.records;
    assert rs[..|rs| - 1] == db.records;
  }

  // ---------------------------------------------------------------------
  // DELETE /api/favorites/:id

  /** Check the id's shape (`isValid` stands for the store's id-format
      predicate), delete the record with that id, and report not-found when
      nothing matched. */
  function Remove(db: Db, id: string, isValid: string -> bool): (t: Transition<Db, ()>)
    ensures !isValid(id) ==>
              t == Transition(Reply(StatusBadRequest, Message("Invalid favorite ID")), db)
    ensures isValid(id) && !HasId(db.records, id) ==>
              t == Transition(Reply(StatusNotFound, Message("Favorite not found")), db)
    ensures isValid(id) && HasId(db.records, id) ==>
              && t.reply == Reply(StatusOk, Message("Favorite removed successfully"))
              && t.store.clock == db.clock
              && exists i :: 0 <= i < |db.records| && db.records[i].id == id
                             && t.store.records == RemoveAt(db.records, i)
  {
    if !isValid(id) then
      Transition(Reply(StatusBadRequest, Message("Invalid favorite ID")), db)
    else
      match IndexWhere(db.records, (f: Favorite) => f.id == id)
      case None => Transition(Reply(StatusNotFound, Message("Favorite not found")), db)
      case Some(i) =>
        Transition(Reply(StatusOk, Message("Favorite removed successfully")),
                   Db(RemoveAt(db.records, i), db.clock))
  }

  lemma RemovePreservesValid(db: Db, id: string, isValid: string -> bool)
    requires Valid(db)
    ensures Valid(Remove(db, id, isValid).store)
  {
    var t := Remove(db, id, isValid);
    if isValid(id) && HasId(db.records, id) {
      var i :| 0 <= i < |db.records| && db.records[i].id == id
                && t.store.records == RemoveAt(db.records, i);
      RemoveAtValid(db, i);
    }
  }

  /** Cutting any one record out of a valid store leaves a valid store. */
  lemma RemoveAtValid(db: Db, i: nat)
    requires Valid(db) && i < |db.records|
    ensures Valid(Db(RemoveAt(db.records, i), db.clock))
  {
    var rs := RemoveAt(db.records, i);
    forall a, b | 0 <= a < b < |rs|
      ensures !SameKey(rs[a], rs[b]) && rs[a].createdAt < rs[b].createdAt
    {
      RemoveAtElement(db.records, i, a);
      RemoveAtElement(db.records, i, b);
    }
    forall a | 0 <= a < |rs|
      ensures Stamped(rs[a], db.clock) && Complete(rs[a])
    {
      RemoveAtElement(db.records, i, a);
    }
  }

  /** A successful delete removes the only record with that id, so deleting
      it again reports not-found. */
  lemma RemoveTwiceNotFound(db: Db, id: string, isValid: string -> bool)
    requires Valid(db)
    requires Remove(db, id, isValid).reply.status == StatusOk
    ensures var db' := Remove(db, id, isValid).store;
            Remove(db', id, isValid) == Transition(Reply(StatusNotFound, Message("Favorite not found")), db')
  {
    var db' := Remove(db, id, isValid).store;
    var i :| 0 <= i < |db.records| && db.records[i].id == id
              && db'.records == RemoveAt(db.records, i);
    forall k | 0 <= k < |db'.records|
      ensures db'.records[k].id != id
    {
      RemoveAtElement(db.records, i, k);
      IdsDistinct(db, i, if k < i then k else k + 1);
    }
  }

  /** The id-format check accepts every id the store issues, as the real
      store's check accepts every id it generates. */
  ghost predicate AcceptsIssued(isValid: string -> bool) {
    forall n: nat :: isValid(IdText(n))
  }

  /** The record lifecycle absent -> present -> absent: deleting a favorite
      just added restores the collection it was added to. */
  lemma AddThenRemoveRestores(db: Db, req: AddRequest, isValid: string -> bool)
    requires Valid(db) && AcceptsIssued(isValid)
    requires Add(db, req).reply.status == StatusCreated
    ensures var t := Add(db, req);
            var r := Remove(t.store, t.reply.body.data.id, isValid);
            r.reply.status == StatusOk && r.store.records == db.records
  {
    var t := Add(db, req);
    var f := t.reply.body.data;
    var rs := t.store.records;
    assert f.id == IdText(db.clock) && isValid(f.id);
    forall k | 0 <= k < |db.records|
      ensures db.records[k].id != f.id
    {
      if db.records[k].id == f.id {
        IdTextInjective(db.records[k].createdAt, db.clock);
        assert false;
      }
    }
    assert rs[|rs| - 1].id == f.id;
    assert HasId(rs, f.id);
    var r := Remove(t.store, f.id, isValid);
    var i :| 0 <= i < |rs| && rs[i].id == f.id && r.store.records == RemoveAt(rs, i);
    assert RemoveAt(rs, i) == db.records;
  }

  // ---------------------------------------------------------------------
  // GET /api/health

  /** The `database` field of the health report. */
  function DatabaseFlag(state: ReadyState): (flag: string)
    ensures flag == "connected" <==> state == Connected
    ensures flag == "connected" || flag == "disconnected"
  {
    if state == Connected then "connected" else "disconnected"
  }

  /** A listing is served only while the health report says "connected". */
  lemma ListServedOnlyWhenConnected(db: Db, userId: string, state: ReadyState)
    requires List(db, userId, state).reply.status == StatusOk
    ensures DatabaseFlag(state) == "connected"
  {
  }

  // ---------------------------------------------------------------------
  // GET /api/nasa/apod

  /** Fail fast without a credential; otherwise send the outbound parameter
      set and relay the payload, or report the upstream's error text. */
  function ProxyApod(apiKey: Option<string>, q: Apod.Query, upstream: Apod.Params -> Apod.Upstream)
    : (x: Apod.Exchange)
    ensures !Present(apiKey) ==>
              x == Apod.Exchange(Reply(StatusServerError, Message("NASA API key not configured")), None)
    ensures Present(apiKey) ==> x.sent == Some(Apod.OutboundParams(apiKey, q))
    ensures x.sent.Some? ==>
              match upstream(x.sent.value)
              case Delivered(payload) => x.reply == Reply(StatusOk, Data(payload))
              case Failed(_, _) =>
                x.reply == Reply(StatusServerError,
                                 Failure("Error fetching data from NASA API",
                                         Apod.ErrorText(upstream(x.sent.value))))
  {
    if !Present(apiKey) then
      Apod.Exchange(Reply(StatusServerError, Message("NASA API key not configured")), None)
    else
      var p := Apod.OutboundParams(apiKey, q);
      match upstream(p)
      case Delivered(payload) => Apod.Exchange(Reply(StatusOk, Data(payload)), Some(p))
      case Failed(_, _) =>
        Apod.Exchange(Reply(StatusServerError,
                            Failure("Error fetching data from NASA API", Apod.ErrorText(upstream(p)))),
                      Some(p))
  }

  /** Every request that reaches the upstream carries a non-empty credential. */
  lemma ProxySendsOnlyWithKey(apiKey: Option<string>, q: Apod.Query, upstream: Apod.Params -> Apod.Upstream)
    ensures var x := ProxyApod(apiKey, q, upstream);
            x.sent.Some? ==> "api_key" in x.sent.value && x.sent.value["api_key"] != ""
  {
  }
}

=== FILE: legacy_favorites.dfy ===
/** The earlier backend (`nasa-image-explorer-backend/server.js`): the same
    three favorites handlers with weaker rules (no field validation, no unique
    index, no sort, a delete that always reports success), and an APOD proxy
    without the credential check. The last section relates it to the current
    backend in `Favorites`. */
module LegacyFavorites {
  import opened Common
  import Apod
  import Favorites

  /** A stored favorite; this schema has no timestamps. */
  datatype Favorite = Favorite(
    id: string,
    userId: string,
    title: string,
    url: string,
    date: string,
    explanation: string,
    mediaType: string)

  /** The collection in insertion order, and the counter that issues ids. */
  datatype Db = Db(records: seq<Favorite>, nextId: nat)

  /** Every field of this schema is required, `mediaType` included; the
      schema rejects empty strings. */
  predicate Complete(f: Favorite) {
    f.userId != "" && f.title != "" && f.url != "" && f.date != ""
    && f.explanation != "" && f.mediaType != ""
  }

  /** Every field the schema requires is present in the request body. */
  predicate Saveable(req: AddRequest) {
    RequiredPresent(req) && Present(req.mediaType)
  }

  /** `id` was issued before the counter reached `n`. */
  predicate Issued(id: string, n: nat) {
    exists k :: 0 <= k < n && id == IdText(k)
  }

  predicate UniqueKeys(records: seq<Favorite>) {
    forall i, j :: 0 <= i < j < |records| ==>
      !(records[i].userId == records[j].userId && records[i].date == records[j].date)
  }

  predicate Valid(db: Db) {
    && UniqueKeys(db.records)
    && (forall i, j :: 0 <= i < j < |db.records| ==> db.records[i].id != db.records[j].id)
    && (forall i :: 0 <= i < |db.records| ==> Issued(db.records[i].id, db.nextId))
    && (forall i :: 0 <= i < |db.records| ==> Complete(db.records[i]))
  }

  /** `findOne({ userId, date })`: an absent filter field matches no stored
      record, since every stored record has both fields. */
  predicate HasMatch(records: seq<Favorite>, req: AddRequest) {
    exists i :: 0 <= i < |records|
      && Some(records[i].userId) == req.userId && Some(records[i].date) == req.date
  }

  predicate HasId(records: seq<Favorite>, id: string) {
    exists i :: 0 <= i < |records| && records[i].id == id
  }

  /** A freshly issued id differs from every id already in a valid store. */
  lemma NextIdFresh(db: Db)
    requires Valid(db)
    ensures !HasId(db.records, IdText(db.nextId))
  {
    forall i | 0 <= i < |db.records|
      ensures db.records[i].id != IdText(db.nextId)
    {
      var k :| 0 <= k < db.nextId && db.records[i].id == IdText(k);
      if db.records[i].id == IdText(db.nextId) {
        IdTextInjective(k, db.nextId);
        assert false;
      }
    }
  }

  // ---------------------------------------------------------------------
  // POST /api/favorites

  /** Reject a repeated (userId, date), otherwise save; the save fails when a
      schema-required field is missing or empty. */
  function Add(db: Db, req: AddRequest): (t: Transition<Db, Favorite>)
    ensures HasMatch(db.records, req) ==>
              t == Transition(Reply(StatusBadRequest, Message("Already in favorites")), db)
    ensures !HasMatch(db.records, req) && !Saveable(req) ==>
              t == Transition(Reply(StatusServerError, Message("Error saving to favorites")), db)
    ensures t.reply.status == StatusCreated <==> !HasMatch(db.records, req) && Saveable(req)
    ensures t.reply.status == StatusCreated ==>
              && t.reply.body.Data?
              && var f := t.reply.body.data;
              && Some(f.userId) == req.userId && Some(f.title) == req.title
              && Some(f.url) == req.url && Some(f.date) == req.date
              && Some(f.explanation) == req.explanation && Some(f.mediaType) == req.mediaType
              && f.id == IdText(db.nextId)
              && t.store.records == db.records + [f]
              && t.store.nextId == db.nextId + 1
    ensures t.reply.status != StatusCreated ==> t.store == db
  {
    if HasMatch(db.records, req) then
      Transition(Reply(StatusBadRequest, Message("Already in favorites")), db)
    else if !Saveable(req) then
      Transition(Reply(StatusServerError, Message("Error saving to favorites")), db)
    else
      var f := Favorite(IdText(db.nextId), req.userId.value, req.title.value, req.url.value,
                        req.date.value, req.explanation.value, req.mediaType.value);
      Transition(Reply(StatusCreated, Data(f)), Db(db.records + [f], db.nextId + 1))
  }

  /** Without a unique index, the duplicate check alone still keeps
      (userId, date) unique when requests are handled one at a time. */
  /** A saved record gets an id that is not in the store and that no earlier
      save was given, deleted records included. */
  lemma AddIssuesUnusedId(db: Db, req: AddRequest)
    requires Valid(db) && Add(db, req).reply.status == StatusCreated
    ensures var id := Add(db, req).reply.body.data.id;
            && !HasId(db.records, id)
            && forall k: nat :: k < db.nextId ==> id != IdText(k)
  {
    NextIdFresh(db);
    forall k: nat | k < db.nextId
      ensures IdText(db.nextId) != IdText(k)
    {
      if IdText(db.nextId) == IdText(k) {
        IdTextInjective(k, db.nextId);
      }
    }
  }

  lemma AddPreservesValid(db: Db, req: AddRequest)
    requires Valid(db)
    ensures Valid(Add(db, req).store)
  {
    var t := Add(db, req);
    if t.reply.status == StatusCreated {
      NextIdFresh(db);
      var f := t.reply.body.data;
      var rs := t.store.records;
      assert rs[|rs| - 1] == f;
      forall i, j | 0 <= i < j < |rs|
        ensures !(rs[i].userId == rs[j].userId && rs[i].date == rs[j].date)
        ensures rs[i].id != rs[j].id
      {
        if j == |rs| - 1 {
          assert rs[i] == db.records[i];
        }
      }
      forall i | 0 <= i < |rs|
        ensures Issued(rs[i].id, t.store.nextId)
      {
        if i < |db.records| {
          assert rs[i] == db.records[i];
          var k :| 0 <= k < db.nextId && db.records[i].id == IdText(k);
        } else {
          assert rs[i].id == IdText(db.nextId);
        }
      }
    }
  }

  // ---------------------------------------------------------------------
  // GET /api/favorites/:userId

  /** The records of `userId`, in storage order. */
  function ForUser(records: seq<Favorite>, userId: string): (r: seq<Favorite>)
    ensures forall f :: f in r <==> f in records && f.userId == userId
    ensures forall f :: multiset(r)[f] == if f.userId == userId then multiset(records)[f] else 0
    ensures |r| <= |records|
    decreases |records|
  {
    if |records| == 0 then []
    else
      assert records == [records[0]] + records[1..];
      if records[0].userId == userId then [records[0]] + ForUser(records[1..], userId)
      else ForUser(records[1..], userId)
  }

  /** No validation and no ordering: exactly the user's records, each as
      often as it is stored. */
  function List(db: Db, userId: string): (t: Transition<Db, seq<Favorite>>)
    ensures t.store == db
    ensures t.reply.status == StatusOk && t.reply.body.Data?
    ensures forall f :: f in t.reply.body.data <==> f in db.records && f.userId == userId
    ensures forall f :: multiset(t.reply.body.data)[f] ==
                          if f.userId == userId then multiset(db.records)[f] else 0
  {
    Transition(Reply(StatusOk, Data(ForUser(db.records, userId))), db)
  }

  // ---------------------------------------------------------------------
  // DELETE /api/favorites/:id

  /** Delete by id and report success whether or not a record matched. An id
      of the wrong shape (`isValid` stands for the store's id-format predicate)
      makes the store's cast throw, which surfaces as a 500. */
  function Remove(db: Db, id: string, isValid: string -> bool): (t: Transition<Db, ()>)
    ensures !isValid(id) ==>
              t == Transition(Reply(StatusServerError, Message("Error removing favorite")), db)
    ensures isValid(id) ==> t.reply == Reply(StatusOk, Message("Favorite removed successfully"))
    ensures isValid(id) && !HasId(db.records, id) ==> t.store == db
    ensures isValid(id) && HasId(db.records, id) ==>
              && t.store.nextId == db.nextId
              && exists i :: 0 <= i < |db.records| && db.records[i].id == id
                             && t.store.records == RemoveAt(db.records, i)
  {
    if !isValid(id) then
      Transition(Reply(StatusServerError, Message("Error removing favorite")), db)
    else
      match IndexWhere(db.records, (f: Favorite) => f.id == id)
      case None => Transition(Reply(StatusOk, Message("Favorite removed successfully")), db)
      case Some(i) =>
        Transition(Reply(StatusOk, Message("Favorite removed successfully")),
                   Db(RemoveAt(db.records, i), db.nextId))
  }

  lemma RemovePreservesValid(db: Db, id: string, isValid: string -> bool)
    requires Valid(db)
    ensures Valid(Remove(db, id, isValid).store)
  {
    var t := Remove(db, id, isValid);
    if isValid(id) && HasId(db.records, id) {
      var i :| 0 <= i < |db.records| && db.records[i].id == id
                && t.store.records == RemoveAt(db.records, i);
      var rs := t.store.records;
      forall a, b | 0 <= a < b < |rs|
        ensures !(rs[a].userId == rs[b].userId && rs[a].date == rs[b].date)
        ensures rs[a].id != rs[b].id
      {
        RemoveAtElement(db.records, i, a);
        RemoveAtElement(db.records, i, b);
      }
      forall a | 0 <= a < |rs|
        ensures Issued(rs[a].id, t.store.nextId) && Complete(rs[a])
      {
        RemoveAtElement(db.records, i, a);
      }
    }
  }

  /** Deleting twice is the same as deleting once: same reply, same store. */
  lemma RemoveIdempotent(db: Db, id: string, isValid: string -> bool)
    requires Valid(db)
    ensures var once := Remove(db, id, isValid);
            Remove(once.store, id, isValid) == once
  {
    var once := Remove(db, id, isValid);
    if isValid(id) && HasId(db.records, id) {
      var i :| 0 <= i < |db.records| && db.records[i].id == id
                && once.store.records == RemoveAt(db.records, i);
      forall k | 0 <= k < |once.store.records|
        ensures once.store.records[k].id != id
      {
        RemoveAtElement(db.records, i, k);
      }
    }
  }

  // ---------------------------------------------------------------------
  // GET /api/nasa/apod

  /** Always send the outbound parameter set, credential or not; relay the
      payload, or report a fixed message on any failure. */
  function ProxyApod(apiKey: Option<string>, q: Apod.Query, upstream: Apod.Params -> Apod.Upstream)
    : (x: Apod.Exchange)
    ensures x.sent == Some(Apod.OutboundParams(apiKey, q))
    ensures upstream(x.sent.value).Delivered? ==>
              x.reply == Reply(StatusOk, Data(upstream(x.sent.value).payload))
    ensures upstream(x.sent.value).Failed? ==>
              x.reply == Reply(StatusServerError, Message("Error fetching data from NASA API"))
  {
    var p := Apod.OutboundParams(apiKey, q);
    match upstream(p)
    case Delivered(payload) => Apod.Exchange(Reply(StatusOk, Data(payload)), Some(p))
    case Failed(_, _) =>
      Apod.Exchange(Reply(StatusServerError, Message("Error fetching data from NASA API")), Some(p))
  }

  /** Without a configured credential the request still goes upstream, with
      no `api_key` at all; the current backend sends nothing in that case. */
  lemma ProxySendsWithoutKey(q: Apod.Query, upstream: Apod.Params -> Apod.Upstream)
    ensures var x := ProxyApod(None, q, upstream);
            x.sent.Some? && "api_key" !in x.sent.value
    ensures Favorites.ProxyApod(None, q, upstream).sent.None?
  {
  }

  // ---------------------------------------------------------------------
  // The two backends compared

  function Project(f: Favorites.Favorite): Favorite {
    Favorite(f.id, f.userId, f.title, f.url, f.date, f.explanation, f.mediaType)
  }

  /** The current store seen through this schema: timestamps dropped. */
  function ProjectDb(db: Favorites.Db): Db {
    Db(seq(|db.records|, i requires 0 <= i < |db.records| => Project(db.records[i])), db.clock)
  }

  lemma ProjectDbValid(db: Favorites.Db)
    requires Favorites.Valid(db)
    ensures Valid(ProjectDb(db))
  {
    var p := ProjectDb(db);
    forall i, j | 0 <= i < j < |p.records|
      ensures p.records[i].id != p.records[j].id
    {
      Favorites.IdsDistinct(db, i, j);
    }
    forall i | 0 <= i < |p.records|
      ensures Issued(p.records[i].id, p.nextId)
    {
      assert p.records[i].id == IdText(db.records[i].createdAt);
    }
  }

  /** On a request carrying all six fields, both backends give the same
      status and leave the same collection. */
  lemma AddAgreesOnCompleteRequests(db: Favorites.Db, req: AddRequest)
    requires Saveable(req)
    ensures var n := Favorites.Add(db, req);
            var l := Add(ProjectDb(db), req);
            && l.reply.status == n.reply.status
            && l.store == ProjectDb(n.store)
  {
    var n := Favorites.Add(db, req);
    var l := Add(ProjectDb(db), req);
    var p := ProjectDb(db);
    assert HasMatch(p.records, req) <==> Favorites.HasKey(db.records, req.userId.value, req.date.value) by {
      if HasMatch(p.records, req) {
        var i :| 0 <= i < |p.records| && Some(p.records[i].userId) == req.userId
                 && Some(p.records[i].date) == req.date;
        assert db.records[i].userId == req.userId.value && db.records[i].date == req.date.value;
      }
      if Favorites.HasKey(db.records, req.userId.value, req.date.value) {
        var i :| 0 <= i < |db.records| && db.records[i].userId == req.userId.value
                 && db.records[i].date == req.date.value;
        assert Some(p.records[i].userId) == req.userId && Some(p.records[i].date) == req.date;
      }
    }
    if n.reply.status == StatusCreated {
      assert l.store.records == ProjectDb(n.store).records;
    }
  }

  /** Without a media type the current backend stores "image"; this one
      fails the save. */
  lemma AddDivergesWithoutMediaType(db: Favorites.Db, req: AddRequest)
    requires RequiredPresent(req) && !Present(req.mediaType)
    requires !Favorites.HasKey(db.records, req.userId.value, req.date.value)
    ensures var n := Favorites.Add(db, req);
            n.reply.status == StatusCreated && n.reply.body.data.mediaType == "image"
    ensures Add(ProjectDb(db), req) ==
              Transition(Reply(StatusServerError, Message("Error saving to favorites")), ProjectDb(db))
  {
  }

  /** Deleting an id that is not stored: the current backend answers 404,
      this one answers 200, and neither changes the collection. */
  lemma RemoveDivergesOnAbsentId(db: Favorites.Db, id: string, isValid: string -> bool)
    requires isValid(id) && !Favorites.HasId(db.records, id)
    ensures Favorites.Remove(db, id, isValid).reply.status == StatusNotFound
    ensures Remove(ProjectDb(db), id, isValid) ==
              Transition(Reply(StatusOk, Message("Favorite removed successfully")), ProjectDb(db))
  {
    var p := ProjectDb(db);
    assert !HasId(p.records, id) by {
      forall i | 0 <= i < |p.records|
        ensures p.records[i].id != id
      {
        assert p.records[i].id == db.records[i].id;
      }
    }
  }
}

=== FILE: quiz.dfy ===
/** The quiz page (`nasa-image-explorer-frontend/src/pages/QuizPage.jsx`): a
    static question bank and the page's state machine (start, answer or skip,
    the countdown, next question, try again, choose a different quiz) with
    the classification of the final score. */
module Quiz {
  import opened Common

  datatype Question = Question(prompt: string, options: seq<string>, answer: nat, explanation: string)

  datatype QuizDef = QuizDef(id: string, title: string, description: string, image: string,
                             questions: seq<Question>)

  /** Seconds allowed per question. */
  const QuestionSeconds: nat := 30

  const SolarSystem: QuizDef :=
    QuizDef("solar-system", "Solar System Quiz", "Test your knowledge about our Solar System!",
            "/api/placeholder/400/300", [
      Question("Which planet is known as the Red Planet?",
               ["Venus", "Mars", "Jupiter", "Saturn"], 1,
               "Mars is often called the \"Red Planet\" because the iron oxide prevalent on its surface gives it a reddish appearance."),
      Question("Which is the largest planet in our Solar System?",
               ["Earth", "Saturn", "Jupiter", "Neptune"], 2,
               "Jupiter is the largest planet in our Solar System. It has a diameter of about 86,881 miles (139,822 km)."),
      Question("How many planets are in our Solar System?",
               ["7", "8", "9", "10"], 1,
               "There are 8 planets in our Solar System: Mercury, Venus, Earth, Mars, Jupiter, Saturn, Uranus, and Neptune. Pluto was reclassified as a dwarf planet in 2006."),
      Question("Which planet has the most moons?",
               ["Jupiter", "Saturn", "Uranus", "Neptune"], 1,
               "Saturn has the most confirmed moons with 83 moons. Jupiter is second with 79 known moons."),
      Question("Which planet is closest to the Sun?",
               ["Mercury", "Venus", "Earth", "Mars"], 0,
               "Mercury is the closest planet to the Sun, at an average distance of 36 million miles (58 million km).")
    ])

  const SpaceExploration: QuizDef :=
    QuizDef("space-exploration", "Space Exploration Quiz", "Test your knowledge about human space exploration!",
            "/api/placeholder/400/300", [
      Question("Who was the first human to walk on the Moon?",
               ["Buzz Aldrin", "Neil Armstrong", "Michael Collins", "Yuri Gagarin"], 1,
               "Neil Armstrong was the first human to walk on the Moon on July 20, 1969, during the Apollo 11 mission."),
      Question("Which space agency launched the Hubble Space Telescope?",
               ["ESA", "NASA", "Roscosmos", "JAXA"], 1,
               "NASA launched the Hubble Space Telescope on April 24, 1990, aboard the Space Shuttle Discovery."),
      Question("What was the name of the first artificial satellite launched into Earth orbit?",
               ["Explorer 1", "Vostok 1", "Sputnik 1", "Apollo 1"], 2,
               "Sputnik 1 was the first artificial satellite, launched by the Soviet Union on October 4, 1957."),
      Question("Which spacecraft carried humans to the Moon?",
               ["Gemini", "Mercury", "Apollo", "Soyuz"], 2,
               "The Apollo spacecraft carried astronauts to the Moon. Six Apollo missions landed humans on the Moon between 1969 and 1972."),
      Question("Who was the first human in space?",
               ["Neil Armstrong", "Yuri Gagarin", "John Glenn", "Alan Shepard"], 1,
               "Yuri Gagarin was the first human to journey into outer space. His spacecraft, Vostok 1, completed one orbit of Earth on April 12, 1961.")
    ])

  /** The bank, in the order the quiz cards are shown. */
  const Quizzes: seq<QuizDef> := [SolarSystem, SpaceExploration]

  predicate WellFormedQuiz(z: QuizDef) {
    && |z.questions| > 0
    && forall i :: 0 <= i < |z.questions| ==> z.questions[i].answer < |z.questions[i].options|
  }

  predicate WellFormedBank(bank: seq<QuizDef>) {
    && (forall k :: 0 <= k < |bank| ==> WellFormedQuiz(bank[k]))
    && (forall k, l :: 0 <= k < l < |bank| ==> bank[k].id != bank[l].id)
  }

  /** Every quiz has questions, every answer index names one of its
      question's options, and quiz ids are distinct. */
  lemma BankWellFormed()
    ensures WellFormedBank(Quizzes)
  {
    AnswersInRange(SolarSystem);
    AnswersInRange(SpaceExploration);
    assert |SolarSystem.id| != |SpaceExploration.id|;
  }

  lemma AnswersInRange(z: QuizDef)
    requires z == SolarSystem || z == SpaceExploration
    ensures WellFormedQuiz(z)
  {
    var qs := z.questions;
    assert |qs| == 5;
    assert qs[0].answer < |qs[0].options|;
    assert qs[1].answer < |qs[1].options|;
    assert qs[2].answer < |qs[2].options|;
    assert qs[3].answer < |qs[3].options|;
    assert qs[4].answer < |qs[4].options|;
  }

  /** `quizzes.find(q => q.id === quizId)`: the first quiz with that id. */
  function FindQuiz(bank: seq<QuizDef>, quizId: string): (r: Option<QuizDef>)
    ensures r.Some? ==> r.value in bank && r.value.id == quizId
    ensures r.None? <==> forall k :: 0 <= k < |bank| ==> bank[k].id != quizId
    decreases |bank|
  {
    if |bank| == 0 then None
    else if bank[0].id == quizId then Some(bank[0])
    else
      var r := FindQuiz(bank[1..], quizId);
      assert forall k :: 1 <= k < |bank| ==> bank[k] == bank[1..][k - 1];
      r
  }

  /** With distinct ids, a card's id finds that card's quiz. */
  lemma {:induction false} FindQuizFindsCard(bank: seq<QuizDef>, k: nat)
    requires WellFormedBank(bank) && k < |bank|
    ensures FindQuiz(bank, bank[k].id) == Some(bank[k])
    decreases k
  {
    if k > 0 {
      assert bank[0].id != bank[k].id;
      assert WellFormedBank(bank[1..]);
      FindQuizFindsCard(bank[1..], k - 1);
    }
  }

  // ---------------------------------------------------------------------
  // Page state

  /** The page's component state. */
  datatype State = State(
    quiz: Option<QuizDef>,
    current: nat,
    score: nat,
    showResults: bool,
    selected: Option<nat>,
    answered: bool,
    timeLeft: nat,
    started: bool)

  const Initial: State := State(None, 0, 0, false, None, false, QuestionSeconds, false)

  /** A quiz is loaded and the current question exists. */
  predicate Playable(s: State) {
    s.quiz.Some? && s.current < |s.quiz.value.questions|
  }

  function CurrentQuestion(s: State): Question
    requires Playable(s)
  {
    s.quiz.value.questions[s.current]
  }

  /** The question screen is rendered. */
  predicate QuestionView(s: State) {
    s.started && !s.showResults
  }

  /** The results screen is rendered. */
  predicate ResultsView(s: State) {
    s.started && s.showResults
  }

  /** What holds in every state the page can reach. */
  predicate Inv(s: State) {
    && (s.started <==> s.quiz.Some?)
    && (s.quiz.Some? ==> WellFormedQuiz(s.quiz.value) && s.current < |s.quiz.value.questions|)
    && s.score <= s.current + (if s.answered then 1 else 0)
    && (s.showResults ==> s.answered)
    && s.timeLeft <= QuestionSeconds
    && (!s.answered ==> s.selected.None?)
    && (!s.answered && !s.started ==> s.timeLeft > 0)
    && (s.quiz.Some? && s.selected.Some? ==> s.selected.value < |CurrentQuestion(s).options|)
  }

  lemma InitialInv()
    ensures Inv(Initial)
  {
  }

  /** Under the invariant the score never exceeds the number of questions
      reached, which never exceeds the length of the quiz. */
  lemma ScoreBounded(s: State)
    requires Inv(s) && s.quiz.Some?
    ensures s.score <= s.current + 1 <= |s.quiz.value.questions|
  {
  }

  // ---------------------------------------------------------------------
  // Transitions

  /** `startQuiz`: load the quiz with the given id from the bank and begin at
      its first question with a full timer; nothing of the previous state
      survives. */
  function Start(bank: seq<QuizDef>, s: State, quizId: string): (r: State)
    requires WellFormedBank(bank)
    ensures r.quiz == FindQuiz(bank, quizId)
    ensures r.current == 0 && r.score == 0 && r.timeLeft == QuestionSeconds
    ensures !r.answered && r.selected.None? && r.started && !r.showResults
    ensures r.quiz.Some? ==> Inv(r)
  {
    State(FindQuiz(bank, quizId), 0, 0, false, None, false, QuestionSeconds, true)
  }

  /** `handleAnswer`: record the selection (absent for a skip or a timeout)
      and score one point when it is the current question's answer. */
  function HandleAnswer(s: State, selection: Option<nat>): (r: State)
    requires Playable(s)
    ensures r.answered && r.selected == selection
    ensures r.score == s.score + 1 <==> selection == Some(CurrentQuestion(s).answer)
    ensures r.score == s.score <==> selection != Some(CurrentQuestion(s).answer)
    ensures r.quiz == s.quiz && r.current == s.current && r.timeLeft == s.timeLeft
    ensures r.started == s.started && r.showResults == s.showResults
  {
    var gained := if selection == Some(CurrentQuestion(s).answer) then 1 else 0;
    s.(selected := selection, answered := true, score := s.score + gained)
  }

  /** `nextQuestion`: move to the next question with a fresh timer, or, on
      the last question, only show the results. */
  function NextQuestion(s: State): (r: State)
    requires s.quiz.Some?
    ensures s.current + 1 < |s.quiz.value.questions| ==>
              && r.current == s.current + 1 && !r.answered && r.selected.None?
              && r.timeLeft == QuestionSeconds && r.showResults == s.showResults
    ensures s.current + 1 >= |s.quiz.value.questions| ==>
              r.showResults && r.current == s.current && r.answered == s.answered
              && r.selected == s.selected && r.timeLeft == s.timeLeft
    ensures r.quiz == s.quiz && r.score == s.score && r.started == s.started
  {
    if s.current + 1 < |s.quiz.value.questions| then
      s.(current := s.current + 1, answered := false, selected := None, timeLeft := QuestionSeconds)
    else
      s.(showResults := true)
  }

  /** "Try Again": replay the same quiz from its first question. */
  function TryAgain(s: State): (r: State)
    ensures r.quiz == s.quiz && r.started == s.started
    ensures r.current == 0 && r.score == 0 && !r.showResults && !r.answered
    ensures r.selected.None? && r.timeLeft == QuestionSeconds
  {
    s.(current := 0, score := 0, showResults := false, answered := false, selected := None,
       timeLeft := QuestionSeconds)
  }

  /** `resetQuiz` ("Choose Different Quiz"): unload the quiz and return to
      the quiz list; every other field keeps its value. */
  function ResetQuiz(s: State): (r: State)
    ensures r.quiz.None? && !r.started
    ensures r.current == s.current && r.score == s.score && r.showResults == s.showResults
    ensures r.answered == s.answered && r.selected == s.selected && r.timeLeft == s.timeLeft
  {
    s.(quiz := None, started := false)
  }

  /** One run of the countdown effect: count down while a question is open
      and unanswered; once the time is up, answer with no selection. */
  function TimerEffect(s: State): (r: State)
    requires s.timeLeft == 0 && !s.answered ==> Playable(s)
    ensures QuestionView(s) && !s.answered && s.timeLeft > 0 ==> r == s.(timeLeft := s.timeLeft - 1)
    ensures s.timeLeft == 0 && !s.answered ==> r == HandleAnswer(s, None)
    ensures s.answered || (s.timeLeft > 0 && !QuestionView(s)) ==> r == s
    ensures r.score == s.score && r.timeLeft <= s.timeLeft
  {
    if s.started && !s.showResults && !s.answered && s.timeLeft > 0 then
      s.(timeLeft := s.timeLeft - 1)
    else if s.timeLeft == 0 && !s.answered then
      HandleAnswer(s, None)
    else
      s
  }

  /** What the user (or the countdown) can do. `Choose(k)` is the start
      button of the k-th quiz card; `Pick(i)` the i-th option button. */
  datatype Event = Choose(card: nat) | Pick(option: nat) | Skip | Next | Retry | ChooseDifferent | Tick

  /** The page's reaction to an event, for the page's question bank `bank`.
      An event whose button is not on the current screen (or is disabled)
      changes nothing. */
  function Step(bank: seq<QuizDef>, s: State, e: Event): (r: State)
    requires WellFormedBank(bank) && Inv(s)
    // the quiz list offers only the cards' start buttons
    ensures !s.started ==> r == s || (e.Choose? && e.card < |bank|)
    ensures e.Choose? && s.started ==> r == s
    ensures e.Choose? && !s.started && e.card < |bank| ==> r == Start(bank, s, bank[e.card].id)
    // the question screen offers the options and skip until answered, then next
    ensures QuestionView(s) && !s.answered ==>
              && (e.Pick? && e.option < |CurrentQuestion(s).options| ==> r == HandleAnswer(s, Some(e.option)))
              && (e.Skip? ==> r == HandleAnswer(s, None))
              && (e.Next? ==> r == s)
    ensures QuestionView(s) && s.answered ==>
              && (e.Next? ==> r == NextQuestion(s))
              && (e.Pick? || e.Skip? || e.Tick? ==> r == s)
    ensures e.Pick? && s.started && e.option >= |CurrentQuestion(s).options| ==> r == s
    // the results screen offers try again and choose different
    ensures ResultsView(s) ==>
              && (e.Retry? ==> r == TryAgain(s))
              && (e.ChooseDifferent? ==> r == ResetQuiz(s))
              && (!e.Retry? && !e.ChooseDifferent? ==> r == s)
    ensures !ResultsView(s) && (e.Retry? || e.ChooseDifferent?) ==> r == s
  {
    match e
    case Choose(k) =>
      if !s.started && k < |bank| then Start(bank, s, bank[k].id) else s
    case Pick(i) =>
      if QuestionView(s) && !s.answered && i < |CurrentQuestion(s).options|
      then HandleAnswer(s, Some(i)) else s
    case Skip =>
      if QuestionView(s) && !s.answered then HandleAnswer(s, None) else s
    case Next =>
      if QuestionView(s) && s.answered then NextQuestion(s) else s
    case Retry =>
      if ResultsView(s) then TryAgain(s) else s
    case ChooseDifferent =>
      if ResultsView(s) then ResetQuiz(s) else s
    case Tick =>
      TimerEffect(s)
  }

  lemma StepPreservesInv(bank: seq<QuizDef>, s: State, e: Event)
    requires WellFormedBank(bank) && Inv(s)
    ensures Inv(Step(bank, s, e))
  {
    match e
    case Choose(k) =>
      if !s.started && k < |bank| {
        FindQuizFindsCard(bank, k);
      }
    case _ =>
  }

  /** The state after a sequence of events. */
  function Run(bank: seq<QuizDef>, s: State, events: seq<Event>): (r: State)
    requires WellFormedBank(bank) && Inv(s)
    ensures Inv(r)
    decreases |events|
  {
    if events == [] then s
    else
      StepPreservesInv(bank, s, events[0]);
      Run(bank, Step(bank, s, events[0]), events[1..])
  }

  /** In every reachable state the score is at most the number of questions
      reached, and at most the length of the quiz. */
  lemma ReachableScoreBounded(bank: seq<QuizDef>, events: seq<Event>)
    requires WellFormedBank(bank)
    ensures var s := Run(bank, Initial, events);
            s.quiz.Some? ==> s.score <= s.current + 1 <= |s.quiz.value.questions|
  {
    InitialInv();
  }

  /** A point is scored only by answering the open question correctly, at
      most once per question: an event raises the score by at most one, and
      only when it turns an unanswered question into a correctly answered
      one. */
  lemma StepScoresAtMostOnce(bank: seq<QuizDef>, s: State, e: Event)
    requires WellFormedBank(bank) && Inv(s)
    ensures var r := Step(bank, s, e);
            && r.score <= s.score + 1
            && (r.score == s.score + 1 ==>
                  && !s.answered && r.answered && r.current == s.current && r.quiz == s.quiz
                  && Playable(s) && r.selected == Some(CurrentQuestion(s).answer))
  {
  }

  /** Once a question is answered, picking, skipping and the countdown leave
      the state as it is. */
  lemma AnsweredIgnoresAnswers(bank: seq<QuizDef>, s: State, i: nat)
    requires WellFormedBank(bank) && Inv(s) && s.answered
    ensures Step(bank, s, Pick(i)) == s && Step(bank, s, Skip) == s && Step(bank, s, Tick) == s
  {
  }

  /** While a question is open, unanswered and the time is not up, a tick
      takes exactly one second off and changes nothing else. */
  lemma TickCountsDown(bank: seq<QuizDef>, s: State)
    requires WellFormedBank(bank) && Inv(s) && QuestionView(s) && !s.answered && s.timeLeft > 0
    ensures Step(bank, s, Tick) == s.(timeLeft := s.timeLeft - 1)
  {
  }

  /** When the time is up on an unanswered question, the countdown answers
      it with no selection, which never scores. */
  lemma TimeoutAnswersWithoutScoring(bank: seq<QuizDef>, s: State)
    requires WellFormedBank(bank) && Inv(s) && !s.answered && s.timeLeft == 0
    ensures var r := Step(bank, s, Tick);
            r.answered && r.selected.None? && r.score == s.score && r.current == s.current
  {
  }

  // ---------------------------------------------------------------------
  // Whole plays and the results message

  /** The number of picks that match their question's answer. */
  function Correct(qs: seq<Question>, picks: seq<Option<nat>>): nat
    requires |picks| <= |qs|
    decreases |picks|
  {
    if picks == [] then 0
    else (if picks[0] == Some(qs[0].answer) then 1 else 0) + Correct(qs[1..], picks[1..])
  }

  lemma {:induction false} CorrectAllIffPerfect(qs: seq<Question>, picks: seq<Option<nat>>)
    requires |picks| <= |qs|
    ensures Correct(qs, picks) <= |picks|
    ensures Correct(qs, picks) == |picks| <==>
              forall i :: 0 <= i < |picks| ==> picks[i] == Some(qs[i].answer)
    decreases |picks|
  {
    if picks != [] {
      CorrectAllIffPerfect(qs[1..], picks[1..]);
      assert forall i :: 1 <= i < |picks| ==> picks[1..][i - 1] == picks[i] && qs[1..][i - 1] == qs[i];
    }
  }

  /** Answer the open question with each pick in turn (absent for a skip),
      pressing next after each. */
  function Play(s: State, picks: seq<Option<nat>>): State
    requires Playable(s)
    requires s.current + |picks| <= |s.quiz.value.questions|
    decreases |picks|
  {
    if picks == [] then s
    else
      var t := NextQuestion(HandleAnswer(s, picks[0]));
      if |picks| == 1 then t else Play(t, picks[1..])
  }

  /** Playing the remaining questions ends on the results screen with one
      point added per correct pick. */
  lemma {:induction false} PlayScores(s: State, picks: seq<Option<nat>>)
    requires Playable(s) && !s.showResults
    requires |picks| > 0 && s.current + |picks| == |s.quiz.value.questions|
    ensures var r := Play(s, picks);
            && r.showResults && r.quiz == s.quiz
            && r.score == s.score + Correct(s.quiz.value.questions[s.current..], picks)
    decreases |picks|
  {
    var qs := s.quiz.value.questions;
    var t := NextQuestion(HandleAnswer(s, picks[0]));
    assert qs[s.current..][0] == qs[s.current];
    if |picks| > 1 {
      PlayScores(t, picks[1..]);
      assert qs[s.current..][1..] == qs[t.current..];
    }
  }

  datatype Verdict = Perfect | WellDone | KeepExploring

  const PerfectText: string := "Perfect score! You're a space expert! \U{1F680}"

  /** The results message: perfect only for a full score, well done for at
      least half (`score >= total / 2`, here without division), otherwise
      keep exploring. */
  function Classify(score: nat, total: nat): (v: Verdict)
    ensures v == Perfect <==> score == total
    ensures v == WellDone <==> score != total && 2 * score >= total
    ensures v == KeepExploring <==> score != total && 2 * score < total
  {
    if score == total then Perfect
    else if 2 * score >= total then WellDone
    else KeepExploring
  }

  /** The text the results screen shows for each verdict. */
  function VerdictText(v: Verdict): string {
    match v
    case Perfect => PerfectText
    case WellDone => "Well done! You have good knowledge about space! \U{1F31F}"
    case KeepExploring => "Keep exploring and learning more about space! \U{1F30C}"
  }

  function Rank(v: Verdict): nat {
    match v
    case KeepExploring => 0
    case WellDone => 1
    case Perfect => 2
  }

  /** Within the reachable range a higher score never earns a lesser message. */
  lemma ClassifyMonotone(a: nat, b: nat, total: nat)
    requires a <= b <= total
    ensures Rank(Classify(a, total)) <= Rank(Classify(b, total))
  {
  }

  /** Answering every question from the first one ends on the results screen
      with the number of correct picks as the score; the message is
      "perfect" exactly when every pick was right. */
  lemma PlayFromFirstQuestion(s: State, picks: seq<Option<nat>>)
    requires Playable(s) && s.current == 0 && s.score == 0 && !s.showResults
    requires |picks| == |s.quiz.value.questions|
    ensures var r := Play(s, picks);
            var qs := s.quiz.value.questions;
            && r.showResults && r.quiz == s.quiz
            && r.score == Correct(qs, picks)
            && (Classify(r.score, |qs|) == Perfect <==>
                  forall i :: 0 <= i < |qs| ==> picks[i] == Some(qs[i].answer))
  {
    var qs := s.quiz.value.questions;
    PlayScores(s, picks);
    assert qs[0..] == qs;
    CorrectAllIffPerfect(qs, picks);
  }

  /** The buttons that give `pick`: the option button, or skip. */
  function PickEvent(pick: Option<nat>): Event {
    match pick
    case None => Skip
    case Some(i) => Pick(i)
  }

  /** Each pick's button followed by "Next Question" / "See Results". */
  function PlayEvents(picks: seq<Option<nat>>): seq<Event>
    decreases |picks|
  {
    if picks == [] then [] else [PickEvent(picks[0]), Next] + PlayEvents(picks[1..])
  }

  /** Picks whose option buttons exist on the questions they answer. */
  predicate PicksOnScreen(s: State, picks: seq<Option<nat>>)
    requires s.quiz.Some? && s.current + |picks| <= |s.quiz.value.questions|
  {
    forall j :: 0 <= j < |picks| && picks[j].Some? ==>
      picks[j].value < |s.quiz.value.questions[s.current + j].options|
  }

  /** Running a non-empty sequence of events is running its first event,
      then the rest. */
  lemma RunCons(bank: seq<QuizDef>, s: State, e: Event, rest: seq<Event>)
    requires WellFormedBank(bank) && Inv(s)
    ensures Inv(Step(bank, s, e))
    ensures Run(bank, s, [e] + rest) == Run(bank, Step(bank, s, e), rest)
  {
    StepPreservesInv(bank, s, e);
    assert ([e] + rest)[0] == e && ([e] + rest)[1..] == rest;
  }

  /** Pressing the buttons of the question screen does what `Play` does:
      the button-level page and the direct play agree on every state. */
  lemma {:induction false} RunPlayEvents(bank: seq<QuizDef>, s: State, picks: seq<Option<nat>>)
    requires WellFormedBank(bank) && Inv(s) && QuestionView(s) && !s.answered
    requires |picks| > 0 && s.current + |picks| <= |s.quiz.value.questions|
    requires PicksOnScreen(s, picks)
    ensures Run(bank, s, PlayEvents(picks)) == Play(s, picks)
    decreases |picks|
  {
    var rest := PlayEvents(picks[1..]);
    assert PlayEvents(picks) == [PickEvent(picks[0])] + ([Next] + rest);
    var h := Step(bank, s, PickEvent(picks[0]));
    assert h == HandleAnswer(s, picks[0]);
    RunCons(bank, s, PickEvent(picks[0]), [Next] + rest);
    var t := Step(bank, h, Next);
    assert t == NextQuestion(h);
    RunCons(bank, h, Next, rest);
    if |picks| > 1 {
      forall j | 0 <= j < |picks[1..]| && picks[1..][j].Some?
        ensures picks[1..][j].value < |t.quiz.value.questions[t.current + j].options|
      {
        assert picks[1..][j] == picks[j + 1];
      }
      RunPlayEvents(bank, t, picks[1..]);
    }
  }

  /** From the quiz list, pressing a card's start button and then one button
      per question ends on the results screen with the number of correct
      picks as the score. */
  lemma PlayQuizFromCard(bank: seq<QuizDef>, k: nat, picks: seq<Option<nat>>)
    requires WellFormedBank(bank) && k < |bank|
    requires |picks| == |bank[k].questions|
    requires forall j :: 0 <= j < |picks| && picks[j].Some? ==>
               picks[j].value < |bank[k].questions[j].options|
    ensures var r := Run(bank, Initial, [Choose(k)] + PlayEvents(picks));
            && r.showResults && r.quiz == Some(bank[k])
            && r.score == Correct(bank[k].questions, picks)
            && (VerdictText(Classify(r.score, |picks|)) == PerfectText <==>
                  forall i :: 0 <= i < |picks| ==> picks[i] == Some(bank[k].questions[i].answer))
  {
    InitialInv();
    FindQuizFindsCard(bank, k);
    var s := Step(bank, Initial, Choose(k));
    assert s == Start(bank, Initial, bank[k].id);
    assert s.quiz == Some(bank[k]) && s.current == 0 && s.score == 0;
    RunCons(bank, Initial, Choose(k), PlayEvents(picks));
    assert PicksOnScreen(s, picks);
    RunPlayEvents(bank, s, picks);
    PlayFromFirstQuestion(s, picks);
  }

  /** Starting any quiz of the bank from its card opens a playable first
      question, so `PlayFromFirstQuestion` applies to it. */
  lemma StartOpensFirstQuestion(k: nat)
    requires k < |Quizzes|
    ensures WellFormedBank(Quizzes)
    ensures var s := Step(Quizzes, Initial, Choose(k));
            && s.quiz == Some(Quizzes[k]) && Playable(s)
            && s.current == 0 && s.score == 0 && !s.showResults && !s.answered
  {
    InitialInv();
    BankWellFormed();
    FindQuizFindsCard(Quizzes, k);
  }
}
